=== FILE: README.md ===
# render.py section pipeline, in Dafny

`render.py` turns a Word inspection report into an HTML report. It converts
the document to HTML with Pandoc, then does the following:

- It walks the children of the HTML `body` and groups them into sections. A
  level-1 or level-2 heading starts a new section. Everything before the first
  heading goes into a "Front Matter" sentinel section.
- In every section titled "summary" (any letter case), it replaces the first
  table with a hard-coded Term/Meaning reference table, followed by a fixed
  explanatory paragraph.
- It drops every section titled "front matter" (any letter case).
- It renders the result through a Jinja2 template.

This project models the three list transformations in the middle, and the
text clean-up they rely on, as pure functions. It proves what they guarantee.

Modules, one file each:

- `Wrappers` (`wrappers.dfy`): `Option`, for Python's `None`.
- `Text` (`text.dfy`): the whitespace class of Python's `str.isspace()`,
  and the text clean-up operations:
  - `str.strip()`;
  - the cell clean-up `re.sub(r"\s+", " ", s).strip()`;
  - the ASCII case folding that stands in for `str.lower()`.
- `Document` (`document.dfy`): the body's children (`Node`), the content
  blocks (`Block`) and the sections (`Section`).
- `SectionParser` (`parser.dfy`): `parse_sections_from_html` over the
  body's children. It comes in two steps:
  1. Each child is classified as a heading (`Break`) or as the blocks it
     adds (`Content`).
  2. The accumulator walk (`Run`) groups them.

  This module also holds a reference reading of the grouping. The document is
  cut at every heading (`Segments`) and the pieces the two flush rules drop
  are removed (`Kept`). The walk is proved equal to it.
- `Summary` (`summary.dfy`): `extract_summary_tables` and
  `inject_clean_summary`.
- `FrontMatterRemoval` (`frontmatter.dfy`): `remove_front_matter`.
- `Report` (`report.dfy`): the sequence of steps in `main`, and a worked
  example run through all of them.

Notes on the code that the model keeps as written:

- **Table tag.** The code tags every table it parses `summary-fixed-table`,
  not just the injected one. So there is a single table constructor,
  `FixedTable`, and the injector's "first table" is the first table of any
  origin.
- **Flush after the last child.** The final flush (render.py:109) keeps the
  last open section only when it has blocks or a non-empty title
  (`KeepAtEnd`). So a trailing empty section under an empty heading is
  dropped, while an empty sentinel section in a document without headings is
  kept.
- **Empty paragraph text.** The injector inserts the paragraph only when it is
  non-empty (render.py:133).

## Model

| member | source | states |
|---|---|---|
| `Text.Strip` | render.py:60 | the result is `s` with its leading and trailing whitespace (Python's `isspace` class) cut off, and nothing else: a slice of `s`, whitespace on both sides of it, none at its ends |
| `Text.StripOfDetermines` | render.py:60 | any text that is `s` minus whitespace runs at both ends is exactly `Strip(s)`, so the stripping contract has one answer only |
| `Text.Collapse` | render.py:97 | collapsing whitespace runs keeps the emptiness of the text and whether it starts or ends in whitespace, and leaves only single plain spaces |
| `Text.Normalize` | render.py:97 | a cleaned cell has no surrounding whitespace, only single spaces inside, and the same non-whitespace characters in the same order as the raw text |
| `Text.NormalizeIdempotent` | render.py:97 | cleaning a cleaned cell changes nothing |
| `Text.NormalizeIsJoinOfWords` | render.py:97 | the cell clean-up equals joining the whitespace-separated words with one space (`" ".join(s.split())`) |
| `Text.Lower` | render.py:124 | the lower-cased title (here and in the front-matter test at render.py:148) has the same length, no ASCII upper-case letter, every upper-case letter replaced by its lower-case partner and every other character unchanged |
| `SectionParser.TableRows` | render.py:95-98 | one row per table row and one cell per cell, each cell the cleaned text of the raw cell |
| `SectionParser.BlocksOf` | render.py:59-107 | a bare string adds nothing when whitespace-only, else one text block holding the stripped string; an image-only paragraph adds one image block per image, in order, with that image's `src`; any other paragraph and any other element add one text block with the inner markup; a table adds one table block whose rows are `SectionParser.TableRows` of the raw rows, one cell per raw cell, each cell the cleaned raw text; a heading adds no block |
| `SectionParser.KeepAtHeading` | render.py:72 | the heading rule: keep the open section when it has blocks or its title is not exactly `Front Matter`; its effect on the output is stated by `SectionParser.CloseAtHeading` |
| `SectionParser.KeepAtEnd` | render.py:109 | the end rule: keep the last open section when it has blocks or a non-empty title; its effect on the output is stated by `SectionParser.CloseAtEnd` |
| `SectionParser.CloseAtHeading` | render.py:72-73 | at a heading the open section is emitted exactly when it has blocks or is not the sentinel; a dropped section is empty |
| `SectionParser.CloseAtEnd` | render.py:109-110 | after the last child the open section is emitted exactly when it has blocks or a non-empty title; a dropped section is empty |
| `SectionParser.Items` | render.py:58-107 | one item per child, in order: a level-1 or level-2 heading becomes a break carrying its text, any other child the blocks it adds |
| `SectionParser.ItemsAgree` | render.py:58-107 | classifying the children keeps every block, in order, and every heading text, in order |
| `SectionParser.Run` | render.py:58-110 | the emitted sections hold the open section's blocks followed by those of the remaining children, none lost, duplicated or reordered |
| `SectionParser.RunTitles` | render.py:71-74 | every section the walk emits is titled by the open section or by one of the remaining headings |
| `SectionParser.Group` | render.py:55-110 | the walk started from the empty `Front Matter` section: the emitted sections hold every block of the items in order, and each is titled `Front Matter` or by a heading |
| `SectionParser.ParseSections` | render.py:54-112 | `parse_sections_from_html` over the body's children; what it returns is stated by `SectionParser.ParseKeepsBlocks` and `SectionParser.ParseIsKeptSegments` |
| `SectionParser.ParseKeepsBlocks` | render.py:54-112 | the blocks of the parsed sections, concatenated, are the blocks of all children in document order; every section is the sentinel or titled by a heading |
| `SectionParser.RunNoBreak` | render.py:109-110 | with no heading left, the walk adds every remaining block to the open section and emits it under the end rule |
| `SectionParser.RunAtBreak` | render.py:71-74 | at the next heading the open section, holding every block before it, is emitted under the heading rule and the walk restarts with an empty section titled by the heading |
| `SectionParser.FrontMatterSection` | render.py:55-110 | a document without headings yields exactly the sentinel section, even when empty; with headings, the sentinel section comes first when the children before the first heading produced blocks and is absent otherwise |
| `SectionParser.Segments` | render.py:54-112 | cutting at every heading gives one piece more than there are headings: the first carries the given title and exactly the blocks before the first heading, the others the heading texts in order, and all blocks are kept in order |
| `SectionParser.Kept` | render.py:72-110 | dropping the pieces the flush rules reject loses no block, and every kept piece is a piece of the input, the later ones from after the first; which pieces go is stated by `SectionParser.KeptCons` and `SectionParser.KeptLast` |
| `SectionParser.KeptCons` | render.py:72-73 | every piece but the last goes through the heading rule, in front of what is kept of the rest |
| `SectionParser.KeptLast` | render.py:109-110 | the last piece goes through the end rule |
| `SectionParser.RunIsKeptSegments` | render.py:58-110 | the walk emits exactly the kept pieces of the document cut at every heading |
| `SectionParser.ParseIsKeptSegments` | render.py:54-112 | the parse is the cut document with rejected pieces dropped, so every section after the first is titled by a heading's text |
| `Summary.ExtractSummaryTables` | render.py:13-33 | the reference table has six rows of two cells, the first `Term`/`Meaning` and the last `NA`/`Not applicable`; the paragraph is non-empty |
| `Summary.Replacement` | render.py:128-137 | the replacement is the reference table, followed by one text block with the paragraph exactly when the paragraph is non-empty |
| `Summary.FirstTable` | render.py:126-128 | names the position of a table with no table before it, or none exactly when the section holds no table |
| `Summary.InjectFrom` | render.py:125-140 | the block loop with its `first_table_replaced` flag; its result is stated by `Summary.InjectFromSplice` (and, once the flag is set, by `Summary.InjectFromReplaced`) |
| `Summary.InjectFromReplaced` | render.py:127-140 | once the flag is set the loop copies every remaining block unchanged |
| `Summary.InjectFromSplice` | render.py:125-141 | the block loop with its `first_table_replaced` flag copies every block before the first table, puts the replacement in its place, and copies every block after it; with no table it copies all |
| `Summary.InjectBlocks` | render.py:125-141 | a summary section's blocks after injection are those before the first table, the replacement, then those after it; unchanged when there is no table |
| `Summary.IsSummary` | render.py:124 | the case-insensitive test `title.lower() == "summary"`; `Report.SummaryIsNotFrontMatter` shows it never overlaps the front-matter test |
| `Summary.InjectSection` | render.py:124-141 | one section of the loop: a summary section keeps its title and gets its first table replaced, any other section is left as it is; stated for every section by `Summary.InjectCleanSummary` |
| `Summary.InjectKeepsTables` | render.py:127-139 | injection keeps the number of tables, and the first table stays where it was, now holding the reference rows |
| `Summary.InjectTwice` | render.py:127-139 | injecting twice replaces the reference table again and repeats the paragraph, so injection is not idempotent |
| `Summary.InjectCleanSummary` | render.py:118-142 | without summary data the sections are returned as they are; otherwise the count, the order and every title are kept, sections not titled "summary" are unchanged, and each summary section gets its first table replaced |
| `FrontMatterRemoval.IsFrontMatter` | render.py:148 | the case-insensitive test `title.lower() == "front matter"`; `Report.SentinelIsFrontMatter` shows the parser's sentinel title passes it |
| `FrontMatterRemoval.RemoveFrontMatter` | render.py:147-149 | the result holds exactly the sections that are not titled "front matter" in any case, and is no longer than the input |
| `FrontMatterRemoval.RemoveAppend` | render.py:147-149 | the filter distributes over concatenation, so the kept sections keep their relative order |
| `FrontMatterRemoval.RemoveCount` | render.py:147-149 | exactly the front-matter sections are removed, counted with multiplicity |
| `FrontMatterRemoval.RemoveIdentity` | render.py:147-149 | a list without a front-matter section comes back unchanged |
| `FrontMatterRemoval.RemoveIdempotent` | render.py:147-149 | removing twice is removing once |
| `Report.Pipeline` | render.py:193-207 | no section of the report is titled "front matter" in any case |
| `Report.PipelineTitles` | render.py:193-207 | every section of the report is titled by a heading of the document, since the sentinel section is always removed |
| `Report.PipelineWithoutHeadings` | render.py:193-207 | a document without headings yields a report without sections |
| `Report.SentinelIsFrontMatter` | render.py:147-149 | the sentinel title counts as front matter for the removal step |
| `Report.SummaryIsNotFrontMatter` | render.py:124 | no title is both "summary" and "front matter" once lower-cased |
| `Report.InjectRemoveCommute` | render.py:204-207 | injecting then removing equals removing then injecting, for any sections and any summary data |
| `Report.SampleReport` | render.py:193-207 | for the body `<p>Intro</p><h1>Summary</h1><table><tr><td>Old</td><td>Data</td></tr></table><h1>Roof</h1><p>Fine.</p>` with newlines between elements, the report is a "Summary" section holding the reference table and the paragraph, then a "Roof" section holding `Fine.`; the introduction is gone |

## Left out

- Running Pandoc (`run_pandoc`, render.py:38-45). This includes the fatal exit on failure and the media directory. It is an external process.
- HTML parsing (BeautifulSoup, render.py:51-52, 56). Each child arrives as a `Node` with the pieces the parser reads from it already extracted:
  - a heading's `get_text(strip=True)`;
  - a paragraph's `decode_contents()`, its `get_text(strip=True)` and the `src` of each `img` inside it;
  - each table cell's raw `get_text()`.
- A body that is missing (`soup.body` is `None`, which makes the source raise). The model is given the children directly.
- The `hasattr(elem, "name")` and `hasattr(elem, "decode_contents")` fallbacks (render.py:68-69, 76-79). Every element the HTML library yields has both, so these fallbacks never fire.
- `render_final_html`, `extract_doc_metadata` and the file handling and printing in `main` (render.py:154-180, 186-190, 195-198, 209-213). These are template evaluation, file I/O and console output.
- The warning printed when summary data is missing (render.py:120). The model returns the sections unchanged there, as the source does.
- `Text.Lower`: `str.lower()` is modelled as ASCII folding. This is exact for the two comparisons the pipeline makes, against "summary" and "front matter". Neither target contains a letter whose full-Unicode lower-casing differs. No other character lower-cases to an ASCII letter other than the Kelvin sign (to `k`) and `İ` (to `i` plus a combining dot). Neither `k` nor `i` occurs in either target.
- In-place mutation. `inject_clean_summary` assigns new block lists to the very section dictionaries it receives. It also shares one `table1` list among all summary sections. The model returns new values instead, because aliasing cannot be seen in the returned list.
- The `docx_file` argument of `extract_summary_tables`. It is never read, so `Summary.ExtractSummaryTables` takes no argument.
- Falsy summary data. `if not summary_data` also skips an empty dictionary. The model's `None` stands for both that and `None`, because `extract_summary_tables` never returns either.

=== FILE: document.dfy ===
/**
 The data the section pipeline works on: the direct children of the HTML
 body (with what the parser reads from each already extracted), the typed
 content blocks, and the sections that group them.
 */
module Document {
  import opened Wrappers

  /** One direct child of the document body. The HTML library is not part of
      this model, so each element arrives with the pieces the parser reads
      from it already extracted. */
  datatype Node =
      /** A bare string between elements; comments and the other kinds of
          string node the HTML library yields land here too. */
    | Str(text: string)
      /** An `h1` or `h2` element; `text` is its visible text, already
          stripped by the HTML library. */
    | Heading(text: string)
      /** A `p` element: its inner markup, its stripped visible text, and the
          `src` attribute of each `img` inside it, in document order (`None`
          where the attribute is missing). */
    | Para(inner: string, visibleText: string, imgSrcs: seq<Option<string>>)
      /** A `table` element: for each `tr`, the raw visible text of each
          `th`/`td` cell. */
    | Table(rawRows: seq<seq<string>>)
      /** Any other element, `h3` and below included: its inner markup. */
    | Other(inner: string)

  /** One unit of section content. Every table the parser reads is tagged
      "summary-fixed-table", and so is the injected reference table, so a
      single table constructor covers both. */
  datatype Block =
    | Text(content: string)
    | Image(path: Option<string>)
    | FixedTable(rows: seq<seq<string>>)

  datatype Section = Section(title: string, blocks: seq<Block>)

  /** The blocks of all sections, concatenated in order. */
  function Flatten(sections: seq<Section>): seq<Block> {
    if |sections| == 0 then [] else sections[0].blocks + Flatten(sections[1..])
  }

  lemma {:induction false} FlattenAppend(a: seq<Section>, b: seq<Section>)
    ensures Flatten(a + b) == Flatten(a) + Flatten(b)
  {
    if |a| > 0 {
      assert (a + b)[1..] == a[1..] + b;
      FlattenAppend(a[1..], b);
    } else {
      assert a + b == b;
    }
  }
}

=== FILE: frontmatter.dfy ===
/**
 Removal of the sections titled "front matter", in any letter case
 (`remove_front_matter`): a filter that keeps the order of the rest.
 */
module FrontMatterRemoval {
  import opened Text
  import opened Document

  /** The case-insensitive title test, `title.lower() == "front matter"`. */
  predicate IsFrontMatter(sec: Section) {
    Lower(sec.title) == "front matter"
  }

  /** `remove_front_matter`: the sections that are not front matter, in their
      original order. */
  function RemoveFrontMatter(sections: seq<Section>): (r: seq<Section>)
    ensures |r| <= |sections|
    ensures forall k | 0 <= k < |r| :: !IsFrontMatter(r[k])
    ensures forall sec :: sec in r <==> sec in sections && !IsFrontMatter(sec)
  {
    if |sections| == 0 then []
    else
      var rest := RemoveFrontMatter(sections[1..]);
      assert forall sec :: sec in sections <==> sec == sections[0] || sec in sections[1..];
      if IsFrontMatter(sections[0]) then rest else [sections[0]] + rest
  }

  function FrontMatterCount(sections: seq<Section>): (n: nat)
    ensures n <= |sections|
  {
    if |sections| == 0 then 0
    else (if IsFrontMatter(sections[0]) then 1 else 0) + FrontMatterCount(sections[1..])
  }

  /** The filter distributes over concatenation, so it keeps the relative
      order of the sections it keeps. */
  lemma {:induction false} RemoveAppend(a: seq<Section>, b: seq<Section>)
    ensures RemoveFrontMatter(a + b) == RemoveFrontMatter(a) + RemoveFrontMatter(b)
  {
    if |a| == 0 {
      assert a + b == b;
    } else {
      assert (a + b)[0] == a[0];
      assert (a + b)[1..] == a[1..] + b;
      RemoveAppend(a[1..], b);
    }
  }

  /** Exactly the front-matter sections go. */
  lemma {:induction false} RemoveCount(sections: seq<Section>)
    ensures |RemoveFrontMatter(sections)| == |sections| - FrontMatterCount(sections)
  {
    if |sections| > 0 {
      RemoveCount(sections[1..]);
    }
  }

  /** Without a front-matter section the filter changes nothing. */
  lemma {:induction false} RemoveIdentity(sections: seq<Section>)
    requires forall k | 0 <= k < |sections| :: !IsFrontMatter(sections[k])
    ensures RemoveFrontMatter(sections) == sections
  {
    if |sections| > 0 {
      var tail := sections[1..];
      forall k | 0 <= k < |tail|
        ensures !IsFrontMatter(tail[k])
      {
        assert tail[k] == sections[k + 1];
      }
      RemoveIdentity(tail);
      assert !IsFrontMatter(sections[0]);
      KeepFirst(sections);
    }
  }

  /** A first section that is not front matter stays in front of the rest. */
  lemma KeepFirst(sections: seq<Section>)
    requires |sections| > 0 && !IsFrontMatter(sections[0])
    requires RemoveFrontMatter(sections[1..]) == sections[1..]
    ensures RemoveFrontMatter(sections) == sections
  {
    assert [sections[0]] + sections[1..] == sections;
  }

  /** Removing twice is removing once. */
  lemma RemoveIdempotent(sections: seq<Section>)
    ensures RemoveFrontMatter(RemoveFrontMatter(sections)) == RemoveFrontMatter(sections)
  {
    RemoveIdentity(RemoveFrontMatter(sections));
  }
}

=== FILE: parser.dfy ===
/**
 Grouping of the body's children into sections (`parse_sections_from_html`).
 One "current section" accumulator walks the children in order; a level-1 or
 level-2 heading closes it and opens the next one, every other child adds
 zero or more blocks to it.
 */
module SectionParser {
  import opened Wrappers
  import opened Text
  import opened Document

  /** The title of the accumulator before the first heading. */
  const FrontMatter: string := "Front Matter"

  /** At a heading the current section is kept when it has blocks or is not
      the sentinel. The comparison is exact: no case folding. */
  predicate KeepAtHeading(sec: Section) {
    |sec.blocks| > 0 || sec.title != FrontMatter
  }

  /** After the last child the current section is kept when it has blocks or
      a non-empty title, so a still-empty sentinel section is kept there. */
  predicate KeepAtEnd(sec: Section) {
    |sec.blocks| > 0 || sec.title != ""
  }

  /** What a heading emits for the section it closes: the section itself, or
      nothing when the heading rule drops it. A dropped section is empty. */
  function CloseAtHeading(sec: Section): (r: seq<Section>)
    ensures Flatten(r) == sec.blocks
    ensures |r| <= 1 && forall k | 0 <= k < |r| :: r[k] == sec
    ensures |r| == 1 <==> KeepAtHeading(sec)
  {
    if KeepAtHeading(sec) then
      assert Flatten([sec]) == sec.blocks + [];
      [sec]
    else []
  }

  /** What the end of the body emits for the last open section. */
  function CloseAtEnd(sec: Section): (r: seq<Section>)
    ensures Flatten(r) == sec.blocks
    ensures |r| <= 1 && forall k | 0 <= k < |r| :: r[k] == sec
    ensures |r| == 1 <==> KeepAtEnd(sec)
  {
    if KeepAtEnd(sec) then
      assert Flatten([sec]) == sec.blocks + [];
      [sec]
    else []
  }

  /** Every cell of every row is normalised text. */
  predicate CellsNormalized(rows: seq<seq<string>>) {
    forall i, j | 0 <= i < |rows| && 0 <= j < |rows[i]| :: Trimmed(rows[i][j]) && SingleSpaced(rows[i][j])
  }

  /** A paragraph that holds images and no visible text becomes image blocks. */
  predicate ImageOnly(n: Node) {
    n.Para? && |n.imgSrcs| > 0 && n.visibleText == ""
  }

  /** The rows of a table element: one row per `tr`, one cell per `th`/`td`,
      each cell normalised. */
  function TableRows(raw: seq<seq<string>>): (rows: seq<seq<string>>)
    ensures |rows| == |raw|
    ensures forall i | 0 <= i < |raw| :: |rows[i]| == |raw[i]|
    ensures forall i, j | 0 <= i < |raw| && 0 <= j < |raw[i]| :: rows[i][j] == Normalize(raw[i][j])
    ensures CellsNormalized(rows)
  {
    seq(|raw|, i requires 0 <= i < |raw| => seq(|raw[i]|, j requires 0 <= j < |raw[i]| => Normalize(raw[i][j])))
  }

  /** The blocks a non-heading child adds to the current section. */
  function BlocksOf(n: Node): (r: seq<Block>)
    ensures n.Heading? ==> r == []
    ensures n.Str? ==> (|r| == 0 <==> SpaceBetween(n.text, 0, |n.text|))
    ensures n.Str? && |r| > 0 ==> |r| == 1 && r[0].Text? && r[0].content != "" && StripOf(n.text, r[0].content)
    ensures ImageOnly(n) ==> |r| == |n.imgSrcs| && forall i | 0 <= i < |r| :: r[i] == Image(n.imgSrcs[i])
    ensures n.Para? && !ImageOnly(n) ==> r == [Text(n.inner)]
    ensures n.Table? ==> |r| == 1 && r[0] == FixedTable(TableRows(n.rawRows)) && CellsNormalized(r[0].rows)
    ensures n.Other? ==> r == [Text(n.inner)]
  {
    match n
    case Str(s) =>
      var t := Strip(s);
      StripEmpty(s);
      if t != "" then [Text(t)] else []
    case Heading(_) => []
    case Para(inner, visible, srcs) =>
      if |srcs| > 0 && visible == "" then seq(|srcs|, i requires 0 <= i < |srcs| => Image(srcs[i]))
      else [Text(inner)]
    case Table(raw) => [FixedTable(TableRows(raw))]
    case Other(inner) => [Text(inner)]
  }

  /** Strip yields nothing exactly for whitespace-only text. */
  lemma StripEmpty(s: string)
    ensures Strip(s) == "" <==> SpaceBetween(s, 0, |s|)
  {
    if SpaceBetween(s, 0, |s|) {
      StripAllSpace(s);
    } else {
      assert LeadCount(s) < |s|;
    }
  }

  // ---------------------------------------------------------------------
  // What each child means to the walk
  // ---------------------------------------------------------------------

  /** A child as the walk sees it: a heading closes the current section and
      opens one with its text, anything else adds blocks to it. */
  datatype Item = Break(title: string) | Content(blocks: seq<Block>)

  function ItemOf(n: Node): Item {
    if n.Heading? then Break(n.text) else Content(BlocksOf(n))
  }

  function Items(nodes: seq<Node>): (r: seq<Item>)
    ensures |r| == |nodes|
    ensures forall i | 0 <= i < |nodes| :: r[i] == ItemOf(nodes[i])
  {
    if |nodes| == 0 then [] else [ItemOf(nodes[0])] + Items(nodes[1..])
  }

  /** The blocks of all children, in document order (headings add none). */
  function NodeBlocks(nodes: seq<Node>): seq<Block> {
    if |nodes| == 0 then [] else BlocksOf(nodes[0]) + NodeBlocks(nodes[1..])
  }

  /** The visible texts of the headings, in document order. */
  function HeadingTexts(nodes: seq<Node>): seq<string> {
    if |nodes| == 0 then []
    else if nodes[0].Heading? then [nodes[0].text] + HeadingTexts(nodes[1..])
    else HeadingTexts(nodes[1..])
  }

  /** The blocks the items add, in order. */
  function Blocks(items: seq<Item>): seq<Block> {
    if |items| == 0 then []
    else if items[0].Break? then Blocks(items[1..])
    else items[0].blocks + Blocks(items[1..])
  }

  /** The titles the items open, in order. */
  function Breaks(items: seq<Item>): seq<string> {
    if |items| == 0 then []
    else if items[0].Break? then [items[0].title] + Breaks(items[1..])
    else Breaks(items[1..])
  }

  predicate NoBreaks(items: seq<Item>) {
    forall i | 0 <= i < |items| :: items[i].Content?
  }

  /** Classifying the children keeps their blocks and heading texts. */
  lemma {:induction false} ItemsAgree(nodes: seq<Node>)
    ensures Blocks(Items(nodes)) == NodeBlocks(nodes)
    ensures Breaks(Items(nodes)) == HeadingTexts(nodes)
  {
    if |nodes| > 0 {
      var it := ItemOf(nodes[0]);
      var rest := Items(nodes[1..]);
      ItemsAgree(nodes[1..]);
      assert Items(nodes) == [it] + rest;
      assert ([it] + rest)[1..] == rest;
      if nodes[0].Heading? {
        assert Blocks([it] + rest) == Blocks(rest);
      } else {
        assert Blocks([it] + rest) == BlocksOf(nodes[0]) + Blocks(rest);
      }
    }
  }

  // ---------------------------------------------------------------------
  // The walk
  // ---------------------------------------------------------------------

  /** The walk over the remaining items with `cur` as the accumulator,
      returning the sections it emits. No block is lost or reordered: the
      emitted sections hold the accumulator's blocks followed by those of the
      remaining items. */
  function Run(cur: Section, items: seq<Item>): (r: seq<Section>)
    ensures Flatten(r) == cur.blocks + Blocks(items)
    decreases |items|
  {
    if |items| == 0 then
      CloseAtEnd(cur)
    else
      match items[0]
      case Break(t) =>
        var head := CloseAtHeading(cur);
        var rest := Run(Section(t, []), items[1..]);
        FlattenAppend(head, rest);
        head + rest
      case Content(bs) =>
        var r := Run(Section(cur.title, cur.blocks + bs), items[1..]);
        assert cur.blocks + bs + Blocks(items[1..]) == cur.blocks + Blocks(items);
        r
  }

  /** Every section the walk emits is titled by the accumulator or by one of
      the remaining breaks. */
  lemma {:induction false} RunTitles(cur: Section, items: seq<Item>)
    ensures forall k | 0 <= k < |Run(cur, items)| ::
              Run(cur, items)[k].title == cur.title || Run(cur, items)[k].title in Breaks(items)
    decreases |items|
  {
    if |items| > 0 {
      match items[0]
      case Break(t) =>
        var head := CloseAtHeading(cur);
        var rest := Run(Section(t, []), items[1..]);
        RunTitles(Section(t, []), items[1..]);
        assert Breaks(items) == [t] + Breaks(items[1..]);
        var r: seq<Section> := head + rest;
        assert Run(cur, items) == r;
        forall k | 0 <= k < |r|
          ensures r[k].title == cur.title || r[k].title in Breaks(items)
        {
          if k < |head| {
            assert r[k] == head[k];
          } else {
            assert r[k] == rest[k - |head|];
            assert r[k].title == t || r[k].title in Breaks(items[1..]);
          }
        }
      case Content(bs) =>
        var next := Section(cur.title, cur.blocks + bs);
        RunTitles(next, items[1..]);
        RunContent(cur, items);
        assert Breaks(items) == Breaks(items[1..]);
    }
  }

  /** The walk from the sentinel accumulator. */
  function Group(items: seq<Item>): (r: seq<Section>)
    ensures Flatten(r) == Blocks(items)
    ensures forall k | 0 <= k < |r| :: r[k].title == FrontMatter || r[k].title in Breaks(items)
  {
    assert [] + Blocks(items) == Blocks(items);
    RunTitles(Section(FrontMatter, []), items);
    Run(Section(FrontMatter, []), items)
  }

  /** `parse_sections_from_html`, over the body's children. */
  function ParseSections(nodes: seq<Node>): seq<Section> {
    Group(Items(nodes))
  }

  /** Grouping neither drops, duplicates nor reorders a block, and every
      section is the sentinel one or titled by a heading. */
  lemma ParseKeepsBlocks(nodes: seq<Node>)
    ensures Flatten(ParseSections(nodes)) == NodeBlocks(nodes)
    ensures forall k | 0 <= k < |ParseSections(nodes)| ::
              ParseSections(nodes)[k].title == FrontMatter || ParseSections(nodes)[k].title in HeadingTexts(nodes)
  {
    ItemsAgree(nodes);
    assert [] + Blocks(Items(nodes)) == Blocks(Items(nodes));
  }

  // ---------------------------------------------------------------------
  // The flush rules, one heading at a time
  // ---------------------------------------------------------------------

  /** The position of the first break, or the length when there is none. */
  function FirstBreak(items: seq<Item>): (k: nat)
    ensures k <= |items|
    ensures NoBreaks(items[..k])
    ensures k < |items| ==> items[k].Break?
  {
    if |items| == 0 || items[0].Break? then 0
    else
      var k := 1 + FirstBreak(items[1..]);
      assert items[..k] == [items[0]] + items[1..][..k - 1];
      k
  }

  /** Without a break left, the walk ends by adding every remaining block to
      the accumulator and flushing it under the end rule. */
  lemma {:induction false} RunNoBreak(cur: Section, items: seq<Item>)
    requires NoBreaks(items)
    ensures var last := Section(cur.title, cur.blocks + Blocks(items));
            Run(cur, items) == CloseAtEnd(last)
    decreases |items|
  {
    if |items| > 0 {
      var tail := items[1..];
      assert items[0].Content?;
      var b0 := items[0].blocks;
      var next := Section(cur.title, cur.blocks + b0);
      assert Run(cur, items) == Run(next, tail);
      assert NoBreaks(tail) by {
        forall i | 0 <= i < |tail| ensures tail[i].Content? {
          assert tail[i] == items[i + 1];
        }
      }
      RunNoBreak(next, tail);
      assert Blocks(items) == b0 + Blocks(tail);
      AssocBlocks(cur.blocks, b0, Blocks(tail));
    } else {
      assert cur.blocks + [] == cur.blocks;
    }
  }

  /** At the first break the accumulator, holding every block before it, is
      flushed under the heading rule and the walk restarts with an empty
      section titled by the break. */
  lemma {:induction false} RunAtBreak(cur: Section, items: seq<Item>)
    requires FirstBreak(items) < |items|
    ensures var k := FirstBreak(items);
            var closed := Section(cur.title, cur.blocks + Blocks(items[..k]));
            Run(cur, items) == CloseAtHeading(closed) + Run(Section(items[k].title, []), items[k + 1..])
    decreases |items|
  {
    var k := FirstBreak(items);
    if k == 0 {
      RunAtFirst(cur, items);
    } else {
      FirstBreakTail(items);
      var next := Section(cur.title, cur.blocks + items[0].blocks);
      var tail := items[1..];
      RunAtBreak(next, tail);
      RunAtBreakStep(cur, items, next, tail);
    }
  }

  /** A break in first place closes the accumulator as it is. */
  lemma RunAtFirst(cur: Section, items: seq<Item>)
    requires FirstBreak(items) == 0 < |items|
    ensures var closed := Section(cur.title, cur.blocks + Blocks(items[..0]));
            Run(cur, items) == CloseAtHeading(closed) + Run(Section(items[0].title, []), items[1..])
  {
    assert items[0].Break?;
    RunBreak(cur, items);
  }

  /** Before the first break, dropping a content item moves the break one
      place to the front. */
  lemma FirstBreakTail(items: seq<Item>)
    requires 0 < FirstBreak(items) < |items|
    ensures items[0].Content? && FirstBreak(items[1..]) == FirstBreak(items) - 1
  {
    assert items[..FirstBreak(items)][0].Content?;
  }

  /** One content item before the first break: the walk from the next item,
      as RunAtBreak states it there, is the walk from this one. */
  lemma RunAtBreakStep(cur: Section, items: seq<Item>, next: Section, tail: seq<Item>)
    requires 0 < FirstBreak(items) < |items|
    requires items[0].Content? && tail == items[1..] && FirstBreak(tail) == FirstBreak(items) - 1
    requires next == Section(cur.title, cur.blocks + items[0].blocks)
    requires var j := FirstBreak(tail);
             Run(next, tail) == CloseAtHeading(Section(next.title, next.blocks + Blocks(tail[..j]))) + Run(Section(tail[j].title, []), tail[j + 1..])
    ensures var k := FirstBreak(items);
            var closed := Section(cur.title, cur.blocks + Blocks(items[..k]));
            Run(cur, items) == CloseAtHeading(closed) + Run(Section(items[k].title, []), items[k + 1..])
  {
    var k := FirstBreak(items);
    var b0 := items[0].blocks;
    BeforeBreakStep(items);
    RunContent(cur, items);
    AssocBlocks(cur.blocks, b0, Blocks(tail[..k - 1]));
    assert Section(next.title, next.blocks + Blocks(tail[..k - 1])) == Section(cur.title, cur.blocks + Blocks(items[..k]));
  }

  /** The sentinel section: input without a break always yields exactly one
      section, the sentinel one, even when it is empty (end rule); with a
      break the sentinel section is emitted only when the items before the
      first break produced blocks (heading rule). */
  lemma FrontMatterSection(items: seq<Item>)
    ensures var k := FirstBreak(items);
            var front := Section(FrontMatter, Blocks(items[..k]));
            && (k == |items| ==> Group(items) == [front])
            && (k < |items| && |front.blocks| > 0 ==> Group(items) == [front] + Run(Section(items[k].title, []), items[k + 1..]))
            && (k < |items| && |front.blocks| == 0 ==> Group(items) == Run(Section(items[k].title, []), items[k + 1..]))
  {
    var k := FirstBreak(items);
    var empty := Section(FrontMatter, []);
    if k == |items| {
      assert items[..k] == items;
      RunNoBreak(empty, items);
      assert [] + Blocks(items) == Blocks(items);
    } else {
      RunAtBreak(empty, items);
      assert [] + Blocks(items[..k]) == Blocks(items[..k]);
    }
  }

  // ---------------------------------------------------------------------
  // Reference reading: cut at every break, then drop empty pieces
  // ---------------------------------------------------------------------

  /** The items cut at every break, before anything is dropped: the first
      piece carries `title` and the blocks before the first break, each later
      piece a break's title and the blocks up to the next break. */
  function Segments(title: string, items: seq<Item>): (segs: seq<Section>)
    ensures |segs| == 1 + |Breaks(items)|
    ensures segs[0].title == title
    ensures forall i | 0 <= i < |Breaks(items)| :: segs[i + 1].title == Breaks(items)[i]
    ensures segs[0].blocks == Blocks(items[..FirstBreak(items)])
    ensures Flatten(segs) == Blocks(items)
    decreases |items|
  {
    var k := FirstBreak(items);
    if k == |items| then
      assert items[..k] == items;
      NoBreakTitles(items);
      var segs := [Section(title, Blocks(items))];
      assert Flatten(segs) == Blocks(items) + [];
      segs
    else
      SplitAtBreak(items);
      var first := Section(title, Blocks(items[..k]));
      var rest := Segments(items[k].title, items[k + 1..]);
      FlattenAppend([first], rest);
      assert Flatten([first]) == first.blocks + [];
      [first] + rest
  }

  /** Drops the pieces the walk does not emit: every piece but the last under
      the heading rule, the last under the end rule. A dropped piece is always
      empty, so no block goes missing. */
  function Kept(segs: seq<Section>): (r: seq<Section>)
    ensures Flatten(r) == Flatten(segs)
    ensures forall k | 0 <= k < |r| :: r[k] in segs
    ensures forall k | 1 <= k < |r| :: r[k] in segs[1..]
  {
    if |segs| == 0 then []
    else if |segs| == 1 then
      assert Flatten(segs) == segs[0].blocks + [];
      assert segs == [segs[0]];
      CloseAtEnd(segs[0])
    else
      var head := CloseAtHeading(segs[0]);
      var rest := Kept(segs[1..]);
      FlattenAppend(head, rest);
      assert forall k | 0 <= k < |rest| :: rest[k] in segs[1..] && rest[k] in segs;
      head + rest
  }

  /** The walk emits exactly the kept pieces of the cut items. */
  lemma {:induction false} RunIsKeptSegments(title: string, items: seq<Item>)
    ensures Run(Section(title, []), items) == Kept(Segments(title, items))
    decreases |items|
  {
    var k := FirstBreak(items);
    if k == |items| {
      RunIsKeptLast(title, items);
    } else {
      var t, rest := items[k].title, items[k + 1..];
      RunIsKeptSegments(t, rest);
      RunIsKeptCut(title, items, t, rest);
    }
  }

  /** No break left: one piece, flushed under the end rule. */
  lemma RunIsKeptLast(title: string, items: seq<Item>)
    requires FirstBreak(items) == |items|
    ensures Run(Section(title, []), items) == Kept(Segments(title, items))
  {
    assert items[..|items|] == items;
    var last := Section(title, Blocks(items));
    RunNoBreak(Section(title, []), items);
    assert Section(title, [] + Blocks(items)) == last;
    SegmentsLast(title, items);
    KeptLast(last);
  }

  /** At the first break: the first piece under the heading rule, then the
      walk from the break, which is the rest of the cut by hypothesis. */
  lemma RunIsKeptCut(title: string, items: seq<Item>, t: string, rest: seq<Item>)
    requires FirstBreak(items) < |items|
    requires t == items[FirstBreak(items)].title && rest == items[FirstBreak(items) + 1..]
    requires Run(Section(t, []), rest) == Kept(Segments(t, rest))
    ensures Run(Section(title, []), items) == Kept(Segments(title, items))
  {
    var k := FirstBreak(items);
    var first := Section(title, Blocks(items[..k]));
    var later := Segments(t, rest);
    RunAtBreak(Section(title, []), items);
    assert Section(title, [] + Blocks(items[..k])) == first;
    SegmentsCut(title, items);
    KeptChain(first, later, Segments(title, items), Run(Section(title, []), items), Run(Section(t, []), rest));
  }

  /** The heading rule on the first piece, in front of the kept rest, is the
      kept whole. */
  lemma KeptChain(first: Section, later: seq<Section>, whole: seq<Section>, run: seq<Section>, runLater: seq<Section>)
    requires |later| > 0 && whole == [first] + later
    requires run == CloseAtHeading(first) + runLater && runLater == Kept(later)
    ensures run == Kept(whole)
  {
    KeptCons(first, later);
  }

  /** Cutting items without a break gives one piece holding all blocks. */
  lemma SegmentsLast(title: string, items: seq<Item>)
    requires FirstBreak(items) == |items|
    ensures Segments(title, items) == [Section(title, Blocks(items))]
  {
    assert items[..|items|] == items;
  }

  /** Cutting at the first break: the piece before it, then the cut of what
      follows it under the break's title. */
  lemma SegmentsCut(title: string, items: seq<Item>)
    requires FirstBreak(items) < |items|
    ensures var k := FirstBreak(items);
            Segments(title, items) == [Section(title, Blocks(items[..k]))] + Segments(items[k].title, items[k + 1..])
  {
  }

  /** The last piece is kept under the end rule. */
  lemma KeptLast(last: Section)
    ensures Kept([last]) == CloseAtEnd(last)
  {
  }

  /** A piece that is not the last is kept under the heading rule. */
  lemma KeptCons(first: Section, later: seq<Section>)
    requires |later| > 0
    ensures Kept([first] + later) == CloseAtHeading(first) + Kept(later)
  {
    assert ([first] + later)[1..] == later;
  }

  /** The parse is the cut document with the empty pieces dropped; every
      section after the first is therefore titled by a heading's text. */
  lemma ParseIsKeptSegments(nodes: seq<Node>)
    ensures ParseSections(nodes) == Kept(Segments(FrontMatter, Items(nodes)))
    ensures forall k | 1 <= k < |ParseSections(nodes)| :: ParseSections(nodes)[k].title in HeadingTexts(nodes)
  {
    var items := Items(nodes);
    RunIsKeptSegments(FrontMatter, items);
    ItemsAgree(nodes);
    KeptLaterTitles(Segments(FrontMatter, items), Breaks(items));
  }

  /** Every kept piece after the first is one of the later pieces, so it
      carries one of their titles. */
  lemma KeptLaterTitles(segs: seq<Section>, titles: seq<string>)
    requires |segs| == 1 + |titles|
    requires forall i | 0 <= i < |titles| :: segs[i + 1].title == titles[i]
    ensures forall k | 1 <= k < |Kept(segs)| :: Kept(segs)[k].title in titles
  {
    var r := Kept(segs);
    forall k | 1 <= k < |r|
      ensures r[k].title in titles
    {
      var i :| 0 <= i < |segs[1..]| && segs[1..][i] == r[k];
      assert segs[1..][i] == segs[i + 1];
      assert r[k].title == titles[i];
    }
  }

  lemma {:induction false} NoBreakTitles(items: seq<Item>)
    requires NoBreaks(items)
    ensures Breaks(items) == []
  {
    if |items| > 0 {
      assert items[0].Content?;
      assert NoBreaks(items[1..]) by {
        forall i | 0 <= i < |items[1..]| ensures items[1..][i].Content? {
          assert items[1..][i] == items[i + 1];
        }
      }
      NoBreakTitles(items[1..]);
    }
  }

  /** Cutting at the first break splits the blocks and the titles. */
  lemma {:induction false} SplitAtBreak(items: seq<Item>)
    requires FirstBreak(items) < |items|
    ensures var k := FirstBreak(items);
            && Blocks(items) == Blocks(items[..k]) + Blocks(items[k + 1..])
            && Breaks(items) == [items[k].title] + Breaks(items[k + 1..])
    decreases |items|
  {
    var k := FirstBreak(items);
    if k == 0 {
      assert items[..0] == [];
      assert Blocks(items) == [] + Blocks(items[1..]);
    } else {
      var tail := items[1..];
      BeforeBreakStep(items);
      SplitAtBreak(tail);
      var b0 := items[0].blocks;
      assert Blocks(items) == b0 + Blocks(tail);
      AssocBlocks(b0, Blocks(tail[..k - 1]), Blocks(items[k + 1..]));
      assert Breaks(items) == Breaks(tail);
    }
  }

  /** A break closes the accumulator under the heading rule. */
  lemma RunBreak(cur: Section, items: seq<Item>)
    requires |items| > 0 && items[0].Break?
    ensures var closed := Section(cur.title, cur.blocks + Blocks(items[..0]));
            Run(cur, items) == CloseAtHeading(closed) + Run(Section(items[0].title, []), items[1..])
  {
    assert items[..0] == [];
    assert cur.blocks + [] == cur.blocks;
  }

  /** A content item only adds its blocks to the accumulator. */
  lemma RunContent(cur: Section, items: seq<Item>)
    requires |items| > 0 && items[0].Content?
    ensures Run(cur, items) == Run(Section(cur.title, cur.blocks + items[0].blocks), items[1..])
  {
  }

  /** One step towards the first break when it is not the first item. */
  lemma BeforeBreakStep(items: seq<Item>)
    requires 0 < FirstBreak(items) < |items|
    ensures var k := FirstBreak(items);
            && items[0].Content?
            && FirstBreak(items[1..]) == k - 1
            && items[1..][k - 1] == items[k]
            && items[1..][k..] == items[k + 1..]
            && Blocks(items[..k]) == items[0].blocks + Blocks(items[1..][..k - 1])
  {
    var k := FirstBreak(items);
    assert items[..k][0].Content?;
    assert items[..k][1..] == items[1..][..k - 1];
  }

  /** Regrouping block lists; kept apart so that `Blocks` is not unfolded
      while the solver regroups. */
  lemma AssocBlocks(a: seq<Block>, b: seq<Block>, c: seq<Block>)
    ensures a + (b + c) == (a + b) + c
  {
  }
}

=== FILE: report.dfy ===
/**
 The section pipeline of `main`: parse the body's children into sections,
 inject the summary data, drop the front-matter sections. Running the
 converter, reading the metadata and rendering the template are not part
 of this model.
 */
module Report {
  import opened Wrappers
  import opened Text
  import opened Document
  import opened SectionParser
  import opened Summary
  import opened FrontMatterRemoval

  /** The sections handed to the template for a body with these children. */
  function Pipeline(nodes: seq<Node>): (r: seq<Section>)
    ensures forall k | 0 <= k < |r| :: !IsFrontMatter(r[k])
  {
    RemoveFrontMatter(InjectCleanSummary(ParseSections(nodes), Some(ExtractSummaryTables())))
  }

  lemma SentinelIsFrontMatter()
    ensures IsFrontMatter(Section(FrontMatter, []))
  {
    assert Lower(FrontMatter) == "front matter";
  }

  /** The sentinel section never reaches the output, so every section of the
      output is opened by a heading of the document. */
  lemma PipelineTitles(nodes: seq<Node>)
    ensures forall k | 0 <= k < |Pipeline(nodes)| :: Pipeline(nodes)[k].title in HeadingTexts(nodes)
  {
    ParseKeepsBlocks(nodes);
    SentinelIsFrontMatter();
    var parsed := ParseSections(nodes);
    var injected := InjectCleanSummary(parsed, Some(ExtractSummaryTables()));
    var r := Pipeline(nodes);
    forall k | 0 <= k < |r|
      ensures r[k].title in HeadingTexts(nodes)
    {
      assert r[k] in injected;
      var i :| 0 <= i < |injected| && injected[i] == r[k];
      assert injected[i].title == parsed[i].title;
      assert r[k].title != FrontMatter by {
        assert !IsFrontMatter(r[k]);
      }
    }
  }

  /** Without a heading everything lands in the sentinel section, which is
      then removed: the report has no section at all. */
  lemma PipelineWithoutHeadings(nodes: seq<Node>)
    requires HeadingTexts(nodes) == []
    ensures Pipeline(nodes) == []
  {
    PipelineTitles(nodes);
    TitlesNeedHeadings(Pipeline(nodes), HeadingTexts(nodes));
  }

  lemma TitlesNeedHeadings(r: seq<Section>, texts: seq<string>)
    ensures (forall k | 0 <= k < |r| :: r[k].title in texts) && |r| > 0 ==> |texts| > 0
  {
    if |r| > 0 {
      assert r[0].title in texts ==> |texts| > 0;
    }
  }

  /** No section is both a summary and front matter. */
  lemma SummaryIsNotFrontMatter(sec: Section)
    ensures IsSummary(sec) ==> !IsFrontMatter(sec)
  {
    if IsSummary(sec) {
      assert |Lower(sec.title)| == 7;
    }
  }

  /** Injection and removal commute: the two steps of `main` touch disjoint
      sets of sections. */
  lemma {:induction false} InjectRemoveCommute(sections: seq<Section>, data: Option<SummaryData>)
    ensures RemoveFrontMatter(InjectCleanSummary(sections, data)) == InjectCleanSummary(RemoveFrontMatter(sections), data)
  {
    if data.Some? && |sections| > 0 {
      var injected := InjectCleanSummary(sections, data);
      InjectRemoveCommute(sections[1..], data);
      assert injected[1..] == InjectCleanSummary(sections[1..], data);
      assert injected[0] == InjectSection(sections[0], data.value);
      SummaryIsNotFrontMatter(sections[0]);
      assert IsFrontMatter(injected[0]) == IsFrontMatter(sections[0]);
      InjectCons(sections[0], RemoveFrontMatter(sections[1..]), data.value);
    }
  }

  lemma InjectCons(sec: Section, rest: seq<Section>, d: SummaryData)
    ensures InjectCleanSummary([sec] + rest, Some(d)) == [InjectSection(sec, d)] + InjectCleanSummary(rest, Some(d))
  {
    var lhs := InjectCleanSummary([sec] + rest, Some(d));
    assert forall i | 1 <= i < |lhs| :: ([sec] + rest)[i] == rest[i - 1];
  }

  /** The sample body: a paragraph before the first heading, a summary
      section holding a document table, and one more section; the bare
      newlines between the elements are kept as the parser sees them. */
  const SampleBody: seq<Node> := [
    Para("Intro", "Intro", []), Str("\n"),
    Heading("Summary"), Str("\n"),
    Table([["Old", "Data"]]), Str("\n"),
    Heading("Roof"), Str("\n"),
    Para("Fine.", "Fine.", [])
  ]

  /** On the sample body the introduction is dropped with the front matter,
      the document table becomes the reference table and its paragraph, and
      the newlines between elements leave no block. */
  lemma SampleReport()
    ensures Pipeline(SampleBody) == [
              Section("Summary", [FixedTable(Table1), Text(MidParagraph)]),
              Section("Roof", [Text("Fine.")])
            ]
  {
    var table := FixedTable(TableRows([["Old", "Data"]]));
    var items := SampleItems(table);
    SampleGroup(items, Text("Intro"), table, Text("Fine."));
    var front := Section(FrontMatter, [Text("Intro")]);
    var fixed := Section("Summary", [FixedTable(Table1), Text(MidParagraph)]);
    var roof := Section("Roof", [Text("Fine.")]);
    SampleInject(front, table, roof);
    SampleRemove(front, fixed, roof);
  }

  /** How the walk sees the sample's children. */
  lemma SampleItems(table: Block) returns (items: seq<Item>)
    requires table == FixedTable(TableRows([["Old", "Data"]]))
    ensures Items(SampleBody) == items
    ensures items == [
      Content([Text("Intro")]), Content([]),
      Break("Summary"), Content([]),
      Content([table]), Content([]),
      Break("Roof"), Content([]),
      Content([Text("Fine.")])
    ]
  {
    SampleNodeItems();
    items := [
      Content([Text("Intro")]), Content([]),
      Break("Summary"), Content([]),
      Content([table]), Content([]),
      Break("Roof"), Content([]),
      Content([Text("Fine.")])
    ];
    NineItems(SampleBody);
  }

  lemma NineItems(body: seq<Node>)
    requires |body| == 9
    ensures Items(body) == [
      ItemOf(body[0]), ItemOf(body[1]), ItemOf(body[2]), ItemOf(body[3]), ItemOf(body[4]),
      ItemOf(body[5]), ItemOf(body[6]), ItemOf(body[7]), ItemOf(body[8])
    ]
  {
    var e := [
      ItemOf(body[0]), ItemOf(body[1]), ItemOf(body[2]), ItemOf(body[3]), ItemOf(body[4]),
      ItemOf(body[5]), ItemOf(body[6]), ItemOf(body[7]), ItemOf(body[8])
    ];
    forall i | 0 <= i < 9
      ensures e[i] == ItemOf(body[i])
    {
      // Naming the index's possible values lets each position of the display
      // be read off directly instead of searched for.
      if i < 3 {
        assert i == 0 || i == 1 || i == 2;
      } else if i < 6 {
        assert i == 3 || i == 4 || i == 5;
      } else {
        assert i == 6 || i == 7 || i == 8;
      }
    }
    ItemsPointwise(body, e);
  }

  /** Items is fixed by what it yields at each position. */
  lemma ItemsPointwise(nodes: seq<Node>, e: seq<Item>)
    requires |e| == |nodes| && forall i | 0 <= i < |e| :: e[i] == ItemOf(nodes[i])
    ensures Items(nodes) == e
  {
  }

  /** How the walk sees each kind of child in the sample. */
  lemma SampleNodeItems()
    ensures ItemOf(Str("\n")) == Content([])
    ensures ItemOf(Para("Intro", "Intro", [])) == Content([Text("Intro")])
    ensures ItemOf(Para("Fine.", "Fine.", [])) == Content([Text("Fine.")])
    ensures ItemOf(Table([["Old", "Data"]])) == Content([FixedTable(TableRows([["Old", "Data"]]))])
  {
    assert SpaceBetween("\n", 0, 1) by {
      assert IsSpace("\n"[0]);
    }
    assert BlocksOf(Str("\n")) == [];
  }

  /** Injection on the sample: only the summary section changes. */
  lemma SampleInject(front: Section, table: Block, roof: Section)
    requires front == Section(FrontMatter, [Text("Intro")]) && table.FixedTable? && roof == Section("Roof", [Text("Fine.")])
    ensures InjectCleanSummary([front, Section("Summary", [table]), roof], Some(ExtractSummaryTables()))
              == [front, Section("Summary", [FixedTable(Table1), Text(MidParagraph)]), roof]
  {
    assert Lower("Summary") == "summary";
    assert !IsSummary(front) by {
      assert |Lower(FrontMatter)| != 7;
    }
    assert !IsSummary(roof) by {
      assert |Lower("Roof")| != 7;
    }
    var d := ExtractSummaryTables();
    assert FirstTable([table]) == Some(0);
    assert InjectBlocks([table], d) == [FixedTable(Table1), Text(MidParagraph)];
  }

  /** Removal on the sample: only the sentinel section goes. */
  lemma SampleRemove(front: Section, fixed: Section, roof: Section)
    requires front.title == FrontMatter && fixed.title == "Summary" && roof.title == "Roof"
    ensures RemoveFrontMatter([front, fixed, roof]) == [fixed, roof]
  {
    SentinelIsFrontMatter();
    assert IsFrontMatter(front);
    assert !IsFrontMatter(fixed) by {
      assert |Lower(fixed.title)| == 7;
    }
    assert !IsFrontMatter(roof) by {
      assert |Lower(roof.title)| == 4;
    }
    assert RemoveFrontMatter([roof]) == [roof] by {
      assert [roof][1..] == [];
    }
    assert RemoveFrontMatter([fixed, roof]) == [fixed, roof] by {
      assert [fixed, roof][1..] == [roof];
    }
    assert [front, fixed, roof][1..] == [fixed, roof];
  }

  /** The walk over the sample's items, one child at a time from the end:
      the last section. */
  lemma SampleRoof(items: seq<Item>, fine: Block)
    requires items == [Content([]), Content([fine])]
    ensures Run(Section("Roof", []), items) == [Section("Roof", [fine])]
  {
    var roof := Section("Roof", [fine]);
    assert Run(roof, items[2..]) == [roof] by {
      assert items[2..] == [];
    }
    assert Run(Section("Roof", []), items[1..]) == [roof] by {
      RunContent(Section("Roof", []), items[1..]);
      assert items[1..][1..] == items[2..];
      assert Section("Roof", [] + [fine]) == roof;
    }
    RunContent(Section("Roof", []), items);
    assert Section("Roof", [] + []) == Section("Roof", []);
  }

  /** The summary section and what follows it. */
  lemma SampleSummary(items: seq<Item>, table: Block, fine: Block)
    requires items == [Content([]), Content([table]), Content([]), Break("Roof"), Content([]), Content([fine])]
    ensures Run(Section("Summary", []), items) == [Section("Summary", [table]), Section("Roof", [fine])]
  {
    var summary := Section("Summary", [table]);
    var roof := Section("Roof", [fine]);
    SampleRoof(items[4..], fine);
    assert Run(summary, items[3..]) == [summary, roof] by {
      RunBreak(summary, items[3..]);
      assert items[3..][1..] == items[4..];
      assert items[3..][..0] == [];
      assert Section("Summary", [table] + Blocks([])) == summary;
    }
    assert Run(summary, items[2..]) == [summary, roof] by {
      RunContent(summary, items[2..]);
      assert items[2..][1..] == items[3..];
      assert Section("Summary", [table] + []) == summary;
    }
    assert Run(Section("Summary", []), items[1..]) == [summary, roof] by {
      RunContent(Section("Summary", []), items[1..]);
      assert items[1..][1..] == items[2..];
      assert Section("Summary", [] + [table]) == summary;
    }
    RunContent(Section("Summary", []), items);
    assert Section("Summary", [] + []) == Section("Summary", []);
  }

  /** The whole walk over the sample's items. */
  lemma SampleGroup(items: seq<Item>, intro: Block, table: Block, fine: Block)
    requires items == [
      Content([intro]), Content([]),
      Break("Summary"), Content([]),
      Content([table]), Content([]),
      Break("Roof"), Content([]),
      Content([fine])
    ]
    ensures Group(items) == [Section(FrontMatter, [intro]), Section("Summary", [table]), Section("Roof", [fine])]
  {
    var front := Section(FrontMatter, [intro]);
    var summary := Section("Summary", [table]);
    var roof := Section("Roof", [fine]);
    SampleSummary(items[3..], table, fine);
    assert Run(front, items[2..]) == [front, summary, roof] by {
      RunBreak(front, items[2..]);
      assert items[2..][1..] == items[3..];
      assert items[2..][..0] == [];
      assert Section(FrontMatter, [intro] + Blocks([])) == front;
    }
    assert Run(front, items[1..]) == [front, summary, roof] by {
      RunContent(front, items[1..]);
      assert items[1..][1..] == items[2..];
      assert Section(FrontMatter, [intro] + []) == front;
    }
    RunContent(Section(FrontMatter, []), items);
    assert Section(FrontMatter, [] + [intro]) == front;
  }
}

=== FILE: summary.dfy ===
/**
 The hard-coded summary data (`extract_summary_tables`) and its injection
 into every section titled "summary" (`inject_clean_summary`): the first
 table block of such a section is replaced by the reference Term/Meaning
 table, followed by the explanatory paragraph when that is not empty.
 */
module Summary {
  import opened Wrappers
  import opened Text
  import opened Document

  /** What `extract_summary_tables` returns: the rows of the first summary
      table and the paragraph that follows it. */
  datatype SummaryData = SummaryData(table1: seq<seq<string>>, midParagraph: string)

  const Table1: seq<seq<string>> := [
    ["Term", "Meaning"],
    ["Serviceable", "Meets the needs and ready to use without major issue"],
    ["Unserviceable", "Not ready to use for various reasons"],
    ["Safety", "Dangerous in some way or could cause harm or injury"],
    ["Maintenance", "Needs routine or ongoing maintenance"],
    ["NA", "Not applicable"]
  ]

  const MidParagraph: string :=
    "These terms are for the summary only and anything found defective "
    + "will have a detailed explanation as well as pictures in the appropriate section."

  /** The summary data. The document it is named after is never read, so the
      function takes no argument. */
  function ExtractSummaryTables(): (d: SummaryData)
    ensures |d.table1| == 6
    ensures forall i | 0 <= i < |d.table1| :: |d.table1[i]| == 2
    ensures d.table1[0] == ["Term", "Meaning"]
    ensures d.table1[5] == ["NA", "Not applicable"]
    ensures |d.midParagraph| > 0
  {
    SummaryData(Table1, MidParagraph)
  }

  /** What the first table of a summary section becomes. */
  function Replacement(d: SummaryData): (r: seq<Block>)
    ensures |r| >= 1 && r[0] == FixedTable(d.table1)
    ensures |r| == 2 <==> d.midParagraph != ""
    ensures |r| <= 2 && (|r| == 2 ==> r[1] == Text(d.midParagraph))
  {
    [FixedTable(d.table1)] + if d.midParagraph != "" then [Text(d.midParagraph)] else []
  }

  /** The position of the first table block, if any. */
  function FirstTable(bs: seq<Block>): (k: Option<nat>)
    ensures k.None? <==> forall i | 0 <= i < |bs| :: !bs[i].FixedTable?
    ensures k.Some? ==> k.value < |bs| && bs[k.value].FixedTable?
    ensures k.Some? ==> forall i | 0 <= i < k.value :: !bs[i].FixedTable?
  {
    if |bs| == 0 then None
    else if bs[0].FixedTable? then Some(0)
    else match FirstTable(bs[1..])
      case None =>
        assert forall i | 1 <= i < |bs| :: bs[i] == bs[1..][i - 1];
        None
      case Some(j) =>
        assert forall i | 1 <= i <= j + 1 :: bs[i] == bs[1..][i - 1];
        Some(j + 1)
  }

  /** The block loop of one summary section, with `replaced` the flag that
      says whether a table has been replaced already. */
  function InjectFrom(bs: seq<Block>, replaced: bool, d: SummaryData): seq<Block> {
    if |bs| == 0 then []
    else if !replaced && bs[0].FixedTable? then Replacement(d) + InjectFrom(bs[1..], true, d)
    else [bs[0]] + InjectFrom(bs[1..], replaced, d)
  }

  /** Once a table has been replaced the loop copies every block. */
  lemma {:induction false} InjectFromReplaced(bs: seq<Block>, d: SummaryData)
    ensures InjectFrom(bs, true, d) == bs
  {
    if |bs| > 0 {
      InjectFromReplaced(bs[1..], d);
      assert [bs[0]] + bs[1..] == bs;
    }
  }

  /** Before the first table the loop copies blocks; at it, it splices the
      replacement in; after it, it copies the rest. */
  lemma {:induction false} InjectFromSplice(bs: seq<Block>, d: SummaryData)
    ensures FirstTable(bs).None? ==> InjectFrom(bs, false, d) == bs
    ensures FirstTable(bs).Some? ==>
              var k := FirstTable(bs).value;
              InjectFrom(bs, false, d) == bs[..k] + Replacement(d) + bs[k + 1..]
  {
    if |bs| > 0 {
      if bs[0].FixedTable? {
        InjectFromReplaced(bs[1..], d);
        assert bs[..0] == [];
      } else {
        InjectFromSplice(bs[1..], d);
        InjectFromCopy(bs, d);
      }
    }
  }

  /** A block that is not a table is copied in front of what the loop makes
      of the rest, which InjectFromSplice states for the rest. */
  lemma InjectFromCopy(bs: seq<Block>, d: SummaryData)
    requires |bs| > 0 && !bs[0].FixedTable?
    requires var rest := bs[1..];
             && (FirstTable(rest).None? ==> InjectFrom(rest, false, d) == rest)
             && (FirstTable(rest).Some? ==>
                   var j := FirstTable(rest).value;
                   InjectFrom(rest, false, d) == rest[..j] + Replacement(d) + rest[j + 1..])
    ensures FirstTable(bs).None? ==> InjectFrom(bs, false, d) == bs
    ensures FirstTable(bs).Some? ==>
              var k := FirstTable(bs).value;
              InjectFrom(bs, false, d) == bs[..k] + Replacement(d) + bs[k + 1..]
  {
    var rest := bs[1..];
    assert bs == [bs[0]] + rest;
    match FirstTable(rest)
    case None =>
    case Some(j) =>
      SpliceCons(bs[0], rest, j, Replacement(d));
  }

  lemma SpliceCons(x: Block, rest: seq<Block>, j: nat, rep: seq<Block>)
    requires j < |rest|
    ensures [x] + (rest[..j] + rep + rest[j + 1..]) == ([x] + rest)[..j + 1] + rep + ([x] + rest)[j + 2..]
  {
    assert ([x] + rest)[..j + 1] == [x] + rest[..j];
    assert ([x] + rest)[j + 2..] == rest[j + 1..];
  }

  /** The blocks of a summary section after injection: the first table is
      replaced and nothing else changes; with no table there is nothing to
      replace. */
  function InjectBlocks(bs: seq<Block>, d: SummaryData): (r: seq<Block>)
    ensures FirstTable(bs).None? ==> r == bs
    ensures FirstTable(bs).Some? ==>
              var k := FirstTable(bs).value;
              r == bs[..k] + Replacement(d) + bs[k + 1..]
  {
    InjectFromSplice(bs, d);
    InjectFrom(bs, false, d)
  }

  /** The case-insensitive title test, `title.lower() == "summary"`. */
  predicate IsSummary(sec: Section) {
    Lower(sec.title) == "summary"
  }

  function InjectSection(sec: Section, d: SummaryData): Section {
    if IsSummary(sec) then Section(sec.title, InjectBlocks(sec.blocks, d)) else sec
  }

  /** `inject_clean_summary`. Absent (or empty) data leaves the sections as
      they are; otherwise every summary section gets its first table
      replaced, and every other section, every title and the order are kept. */
  function InjectCleanSummary(sections: seq<Section>, data: Option<SummaryData>): (r: seq<Section>)
    ensures data.None? ==> r == sections
    ensures |r| == |sections|
    ensures forall i | 0 <= i < |r| :: r[i].title == sections[i].title
    ensures forall i | 0 <= i < |r| && !IsSummary(sections[i]) :: r[i] == sections[i]
    ensures data.Some? ==> forall i | 0 <= i < |r| && IsSummary(sections[i]) :: r[i].blocks == InjectBlocks(sections[i].blocks, data.value)
  {
    match data
    case None => sections
    case Some(d) => seq(|sections|, i requires 0 <= i < |sections| => InjectSection(sections[i], d))
  }

  // ---------------------------------------------------------------------
  // Properties of the replacement
  // ---------------------------------------------------------------------

  function TableCount(bs: seq<Block>): (n: nat)
    ensures n <= |bs|
  {
    if |bs| == 0 then 0 else (if bs[0].FixedTable? then 1 else 0) + TableCount(bs[1..])
  }

  lemma {:induction false} TableCountAppend(a: seq<Block>, b: seq<Block>)
    ensures TableCount(a + b) == TableCount(a) + TableCount(b)
  {
    if |a| > 0 {
      assert (a + b)[1..] == a[1..] + b;
      TableCountAppend(a[1..], b);
    } else {
      assert a + b == b;
    }
  }

  /** Injection swaps one table for another: the number of tables in a
      section is unchanged, and the first table holds the reference rows. */
  lemma InjectKeepsTables(bs: seq<Block>, d: SummaryData)
    ensures TableCount(InjectBlocks(bs, d)) == TableCount(bs)
    ensures FirstTable(bs).Some? ==>
              var k := FirstTable(bs).value;
              FirstTable(InjectBlocks(bs, d)) == Some(k) && InjectBlocks(bs, d)[k] == FixedTable(d.table1)
  {
    match FirstTable(bs)
    case None =>
    case Some(k) =>
      var pre, rep, post := bs[..k], Replacement(d), bs[k + 1..];
      assert bs == pre + [bs[k]] + post;
      assert TableCount(rep) == 1 by {
        assert rep[1..] == [] || rep[1..] == [Text(d.midParagraph)];
      }
      SwapTable(pre, bs[k], rep, post);
      var r := pre + rep + post;
      assert r[k] == FixedTable(d.table1);
      assert forall i | 0 <= i < k :: r[i] == bs[i];
      FirstTableIs(r, k);
  }

  /** Swapping one table for blocks holding one table keeps the count. */
  lemma SwapTable(pre: seq<Block>, x: Block, rep: seq<Block>, post: seq<Block>)
    requires x.FixedTable? && TableCount(rep) == 1
    ensures TableCount(pre + rep + post) == TableCount(pre + [x] + post)
  {
    TableCountAppend(pre + [x], post);
    TableCountAppend(pre, [x]);
    TableCountAppend(pre + rep, post);
    TableCountAppend(pre, rep);
  }

  /** FirstTable names the one table with no table before it. */
  lemma FirstTableIs(bs: seq<Block>, k: nat)
    requires k < |bs| && bs[k].FixedTable?
    requires forall i | 0 <= i < k :: !bs[i].FixedTable?
    ensures FirstTable(bs) == Some(k)
  {
    var j := FirstTable(bs).value;
    assert bs[j].FixedTable?;
  }

  /** Injecting twice is not the same as injecting once: the first table is
      the reference table already, so it is replaced again and a second
      copy of the paragraph follows it. */
  lemma InjectTwice(bs: seq<Block>, d: SummaryData)
    requires FirstTable(bs).Some? && d.midParagraph != ""
    ensures var k := FirstTable(bs).value;
            InjectBlocks(InjectBlocks(bs, d), d)
              == bs[..k] + [FixedTable(d.table1), Text(d.midParagraph), Text(d.midParagraph)] + bs[k + 1..]
  {
    var k := FirstTable(bs).value;
    InjectKeepsTables(bs, d);
    var once := InjectBlocks(bs, d);
    var rep := Replacement(d);
    assert rep == [FixedTable(d.table1), Text(d.midParagraph)];
    TwiceSplice(bs[..k], rep, bs[k + 1..], once);
    assert FirstTable(once) == Some(k);
  }

  lemma TwiceSplice(pre: seq<Block>, rep: seq<Block>, post: seq<Block>, once: seq<Block>)
    requires |rep| == 2 && once == pre + rep + post
    ensures once[..|pre|] + rep + once[|pre| + 1..] == pre + [rep[0], rep[1], rep[1]] + post
  {
    assert once[..|pre|] == pre;
    assert once[|pre| + 1..] == [rep[1]] + post;
  }

  /** A summary section that holds no table comes out unchanged. */
  lemma NoTableNoChange(sections: seq<Section>, d: SummaryData, i: nat)
    requires i < |sections| && FirstTable(sections[i].blocks).None?
    ensures InjectCleanSummary(sections, Some(d))[i] == sections[i]
  {
  }
}

=== FILE: text.dfy ===
/**
 The string primitives the section pipeline relies on: Python's whitespace
 class, `str.strip()`, the `re.sub(r"\s+", " ", ...)` collapse applied to
 table cells, and `str.lower()` as used for title comparisons.
 */
module Text {

  /** Python's whitespace class: the code points for which `str.isspace()`
      holds. The same class is what `\s` matches in a `str` pattern and what
      `str.strip()` removes. */
  predicate IsSpace(c: char) {
    var n := c as int;
    || (0x09 <= n <= 0x0D)
    || (0x1C <= n <= 0x20)
    || n == 0x85 || n == 0xA0 || n == 0x1680
    || (0x2000 <= n <= 0x200A)
    || n == 0x2028 || n == 0x2029 || n == 0x202F || n == 0x205F || n == 0x3000
  }

  /** No whitespace at either end. */
  predicate Trimmed(s: string) {
    |s| == 0 || (!IsSpace(s[0]) && !IsSpace(s[|s| - 1]))
  }

  /** Every whitespace character is a plain space and is not followed by
      another whitespace character (see SingleSpacedAt for the pointwise
      reading). */
  predicate SingleSpaced(s: string) {
    |s| == 0 ||
    ((IsSpace(s[0]) ==> s[0] == ' ' && (|s| == 1 || !IsSpace(s[1]))) && SingleSpaced(s[1..]))
  }

  /** Positions `lo` up to (not including) `hi` of `s` are all whitespace. */
  predicate SpaceBetween(s: string, lo: int, hi: int) {
    forall k | lo <= k < hi && 0 <= k < |s| :: IsSpace(s[k])
  }

  /** Positions `lo` up to (not including) `hi` of `s` hold no whitespace. */
  predicate WordBetween(s: string, lo: int, hi: int) {
    forall k | lo <= k < hi && 0 <= k < |s| :: !IsSpace(s[k])
  }

  /** `r` is what is left of `s` once the whitespace at both ends is cut off. */
  ghost predicate StripOf(s: string, r: string) {
    && Trimmed(r)
    && exists i, j | 0 <= i <= j <= |s| :: s[i..j] == r && SpaceBetween(s, 0, i) && SpaceBetween(s, j, |s|)
  }

  /** The characters of `s` that are not whitespace, in order. */
  function NonSpace(s: string): string {
    if |s| == 0 then ""
    else if IsSpace(s[0]) then NonSpace(s[1..])
    else [s[0]] + NonSpace(s[1..])
  }

  // ---------------------------------------------------------------------
  // strip
  // ---------------------------------------------------------------------

  /** How many whitespace characters `s` starts with. */
  function LeadCount(s: string): (n: nat)
    ensures n <= |s|
    ensures SpaceBetween(s, 0, n)
    ensures n < |s| ==> !IsSpace(s[n])
  {
    if |s| > 0 && IsSpace(s[0]) then 1 + LeadCount(s[1..]) else 0
  }

  /** How many whitespace characters `s` ends with. */
  function TrailCount(s: string): (n: nat)
    ensures n <= |s|
    ensures SpaceBetween(s, |s| - n, |s|)
    ensures n < |s| ==> !IsSpace(s[|s| - 1 - n])
  {
    if |s| > 0 && IsSpace(s[|s| - 1]) then 1 + TrailCount(s[..|s| - 1]) else 0
  }

  /** `str.strip()` with no argument. */
  function Strip(s: string): (r: string)
    ensures StripOf(s, r)
  {
    var i := LeadCount(s);
    if i == |s| then
      assert s[|s|..|s|] == "";
      ""
    else
      var j := |s| - TrailCount(s);
      assert i < j by {
        assert !IsSpace(s[i]);
      }
      s[i..j]
  }

  /** Strip admits one answer only: whatever satisfies its contract is the
      value it returns. */
  lemma StripOfDetermines(s: string, r: string)
    requires StripOf(s, r)
    ensures r == Strip(s)
  {
    var i, j :| 0 <= i <= j <= |s| && s[i..j] == r && SpaceBetween(s, 0, i) && SpaceBetween(s, j, |s|);
    StripSlice(s, r, i, j);
  }

  /** A trimmed slice with only whitespace around it is what Strip returns. */
  lemma StripSlice(s: string, r: string, i: nat, j: nat)
    requires i <= j <= |s| && s[i..j] == r && Trimmed(r)
    requires SpaceBetween(s, 0, i) && SpaceBetween(s, j, |s|)
    ensures r == Strip(s)
  {
    if i < j {
      assert s[i] == r[0] && s[j - 1] == r[|r| - 1];
      StripAt(s, i, j);
    } else {
      SpaceJoin(s, i);
      StripAllSpace(s);
    }
  }

  /** Two whitespace runs that meet at `i` make one. */
  lemma SpaceJoin(s: string, i: nat)
    requires i <= |s| && SpaceBetween(s, 0, i) && SpaceBetween(s, i, |s|)
    ensures SpaceBetween(s, 0, |s|)
  {
  }

  /** Text with a non-whitespace character at `i` and at `j - 1` and only
      whitespace outside `i..j` strips to that slice. */
  lemma StripAt(s: string, i: nat, j: nat)
    requires i < j <= |s| && SpaceBetween(s, 0, i) && SpaceBetween(s, j, |s|)
    requires !IsSpace(s[i]) && !IsSpace(s[j - 1])
    ensures Strip(s) == s[i..j]
  {
    LeadCountIs(s, i);
    TrailCountIs(s, j);
  }

  /** LeadCount is the one position where the leading run ends. */
  lemma LeadCountIs(s: string, i: nat)
    requires i <= |s| && SpaceBetween(s, 0, i) && (i < |s| ==> !IsSpace(s[i]))
    ensures LeadCount(s) == i
  {
    var n := LeadCount(s);
    assert n < |s| ==> !IsSpace(s[n]);
    assert i < |s| ==> !IsSpace(s[i]);
  }

  /** TrailCount is the length of the one trailing run, the one that starts
      at `j`. */
  lemma TrailCountIs(s: string, j: nat)
    requires j <= |s| && SpaceBetween(s, j, |s|) && (0 < j ==> !IsSpace(s[j - 1]))
    ensures TrailCount(s) == |s| - j
  {
    var n := TrailCount(s);
    assert n < |s| ==> !IsSpace(s[|s| - 1 - n]);
    assert 0 < j ==> !IsSpace(s[j - 1]);
  }

  /** Text already free of surrounding whitespace is left alone by Strip. */
  lemma StripTrimmed(s: string)
    requires Trimmed(s)
    ensures Strip(s) == s
  {
    assert StripOf(s, s) by {
      assert s[0..|s|] == s;
    }
    StripOfDetermines(s, s);
  }

  /** Text that is all whitespace strips to nothing. */
  lemma StripAllSpace(s: string)
    requires SpaceBetween(s, 0, |s|)
    ensures Strip(s) == ""
  {
    assert LeadCount(s) == |s|;
  }

  /** Stripping keeps every non-whitespace character. */
  lemma StripKeeps(s: string)
    ensures NonSpace(Strip(s)) == NonSpace(s)
  {
    var i := LeadCount(s);
    if i == |s| {
      assert Strip(s) == "";
      NonSpaceOfSpaces(s);
    } else {
      var j := |s| - TrailCount(s);
      assert Strip(s) == s[i..j];
      NonSpaceMiddle(s, i, j);
    }
  }

  /** Cutting whitespace off both ends keeps the text. */
  lemma NonSpaceMiddle(s: string, i: nat, j: nat)
    requires i <= j <= |s| && SpaceBetween(s, 0, i) && SpaceBetween(s, j, |s|)
    ensures NonSpace(s[i..j]) == NonSpace(s)
  {
    var t := s[i..];
    NonSpaceDropLead(s, i);
    SpaceInSuffix(s, i, j);
    NonSpaceDropTrail(t, j - i);
    assert t[..j - i] == s[i..j];
  }

  /** A trailing whitespace run of `s` is one of every suffix of `s`. */
  lemma SpaceInSuffix(s: string, i: nat, j: nat)
    requires i <= j <= |s| && SpaceBetween(s, j, |s|)
    ensures SpaceBetween(s[i..], j - i, |s| - i)
  {
    var t := s[i..];
    forall k | j - i <= k < |t|
      ensures IsSpace(t[k])
    {
      assert t[k] == s[i + k];
    }
  }

  lemma {:induction false} NonSpaceDropLead(s: string, i: nat)
    requires i <= |s| && SpaceBetween(s, 0, i)
    ensures NonSpace(s[i..]) == NonSpace(s)
  {
    if i > 0 {
      assert IsSpace(s[0]);
      NonSpaceDropLead(s[1..], i - 1);
      assert s[1..][i - 1..] == s[i..];
    }
  }

  lemma NonSpaceDropTrail(s: string, j: nat)
    requires j <= |s| && SpaceBetween(s, j, |s|)
    ensures NonSpace(s[..j]) == NonSpace(s)
  {
    NonSpaceSplit(s, j);
    var u := s[j..];
    assert SpaceBetween(u, 0, |u|) by {
      forall k | 0 <= k < |u|
        ensures IsSpace(u[k])
      {
        assert u[k] == s[j + k];
      }
    }
    NonSpaceOfSpaces(u);
    assert NonSpace(s[..j]) + "" == NonSpace(s[..j]);
  }

  /** Stripping cannot create adjacent whitespace. */
  lemma StripSingleSpaced(s: string)
    requires SingleSpaced(s)
    ensures SingleSpaced(Strip(s))
  {
    var i := LeadCount(s);
    if i < |s| {
      SingleSpacedSlice(s, i, |s| - TrailCount(s));
    }
  }

  // ---------------------------------------------------------------------
  // whitespace collapse and cell normalisation
  // ---------------------------------------------------------------------

  /** `re.sub(r"\s+", " ", s)`: every maximal run of whitespace becomes one
      space; everything else is kept. A whitespace character followed by
      another one is dropped, so each run leaves only its last member, as a
      plain space. */
  function Collapse(s: string): (r: string)
    ensures |r| == 0 <==> |s| == 0
    ensures |r| > 0 ==> (IsSpace(r[0]) <==> IsSpace(s[0]))
    ensures |r| > 0 ==> (IsSpace(r[|r| - 1]) <==> IsSpace(s[|s| - 1]))
    ensures SingleSpaced(r)
  {
    if |s| == 0 then ""
    else
      var c := Collapse(s[1..]);
      if IsSpace(s[0]) && |s| > 1 && IsSpace(s[1]) then c
      else
        var h := if IsSpace(s[0]) then ' ' else s[0];
        SingleSpacedCons(h, c);
        [h] + c
  }

  /** The cell normalisation applied to table text: collapse, then strip. */
  function Normalize(s: string): (r: string)
    ensures Trimmed(r)
    ensures SingleSpaced(r)
    ensures NonSpace(r) == NonSpace(s)
  {
    var c := Collapse(s);
    CollapseKeepsText(s);
    StripKeeps(c);
    StripSingleSpaced(c);
    Strip(c)
  }

  /** Collapsing keeps every non-whitespace character, in order. */
  lemma {:induction false} CollapseKeepsText(s: string)
    ensures NonSpace(Collapse(s)) == NonSpace(s)
  {
    if |s| > 0 {
      CollapseKeepsText(s[1..]);
      var c := Collapse(s[1..]);
      if !(IsSpace(s[0]) && |s| > 1 && IsSpace(s[1])) {
        var h := if IsSpace(s[0]) then ' ' else s[0];
        assert ([h] + c)[0] == h && ([h] + c)[1..] == c;
      }
    }
  }

  /** Single-spaced text is left alone by Collapse. */
  lemma {:induction false} CollapseSingleSpaced(s: string)
    requires SingleSpaced(s)
    ensures Collapse(s) == s
  {
    if |s| > 0 {
      SingleSpacedSlice(s, 1, |s|);
      CollapseSingleSpaced(s[1..]);
      assert IsSpace(s[0]) ==> s[0] == ' ' && !(|s| > 1 && IsSpace(s[1]));
      assert Collapse(s) == [s[0]] + s[1..];
    }
  }

  /** Normalising twice is the same as normalising once. */
  lemma NormalizeIdempotent(s: string)
    ensures Normalize(Normalize(s)) == Normalize(s)
  {
    var r := Normalize(s);
    CollapseSingleSpaced(r);
    StripTrimmed(r);
  }

  // ---------------------------------------------------------------------
  // the reference reading: " ".join(s.split())
  // ---------------------------------------------------------------------

  /** The whitespace-separated words of `s`, as Python's `str.split()`
      with no argument returns them. */
  function Words(s: string): (ws: seq<string>)
    ensures forall k | 0 <= k < |ws| :: |ws[k]| > 0 && WordBetween(ws[k], 0, |ws[k]|)
    ensures |s| > 0 && !IsSpace(s[0]) ==> |ws| > 0
    decreases |s|
  {
    if |s| == 0 then []
    else if IsSpace(s[0]) then Words(s[1..])
    else
      var n := WordLen(s);
      [s[..n]] + Words(s[n..])
  }

  /** The length of the longest prefix of `s` without whitespace. */
  function WordLen(s: string): (n: nat)
    ensures n <= |s|
    ensures WordBetween(s, 0, n)
    ensures n < |s| ==> IsSpace(s[n])
    ensures |s| > 0 && !IsSpace(s[0]) ==> n > 0
  {
    if |s| == 0 || IsSpace(s[0]) then 0 else 1 + WordLen(s[1..])
  }

  /** `" ".join(ws)`. */
  function Join(ws: seq<string>): string {
    if |ws| == 0 then ""
    else if |ws| == 1 then ws[0]
    else ws[0] + " " + Join(ws[1..])
  }

  /** A word at the front of the text passes through Collapse unchanged. */
  lemma {:induction false} CollapsePrefix(s: string, k: nat)
    requires k <= |s| && WordBetween(s, 0, k)
    ensures Collapse(s) == s[..k] + Collapse(s[k..])
  {
    if k > 0 {
      assert !IsSpace(s[0]);
      assert Collapse(s) == [s[0]] + Collapse(s[1..]);
      CollapsePrefix(s[1..], k - 1);
      PrependSlice(s, k, Collapse(s[k..]));
    } else {
      assert s[..0] == "" && s[0..] == s;
    }
  }

  lemma PrependSlice(s: string, k: nat, x: string)
    requires 0 < k <= |s|
    ensures s[1..][k - 1..] == s[k..]
    ensures [s[0]] + (s[1..][..k - 1] + x) == s[..k] + x
  {
    assert [s[0]] + s[1..][..k - 1] == s[..k];
  }

  /** A whitespace run collapses to one space in front of what follows it. */
  lemma {:induction false} CollapseRun(s: string)
    requires |s| > 0 && IsSpace(s[0])
    ensures Collapse(s) == " " + Collapse(s[LeadCount(s)..])
  {
    if |s| > 1 && IsSpace(s[1]) {
      CollapseRun(s[1..]);
      assert s[1..][LeadCount(s[1..])..] == s[LeadCount(s)..];
    }
  }

  lemma {:induction false} WordsSkipSpace(s: string)
    ensures Words(s) == Words(s[LeadCount(s)..])
  {
    if |s| > 0 && IsSpace(s[0]) {
      WordsSkipSpace(s[1..]);
      assert s[1..][LeadCount(s[1..])..] == s[LeadCount(s)..];
    }
  }

  lemma {:induction false} JoinTrimmed(ws: seq<string>)
    requires forall k | 0 <= k < |ws| :: |ws[k]| > 0 && WordBetween(ws[k], 0, |ws[k]|)
    ensures Trimmed(Join(ws))
    ensures |ws| > 0 ==> |Join(ws)| > 0
  {
    if |ws| > 1 {
      JoinTrimmed(ws[1..]);
    }
  }

  lemma JoinCons(w: string, ws: seq<string>)
    requires |ws| > 0
    ensures Join([w] + ws) == w + " " + Join(ws)
  {
    assert ([w] + ws)[1..] == ws;
  }

  /** Collapsing text that starts with a word yields the words joined by
      single spaces, plus one space when the text ended in whitespace. */
  lemma {:induction false} CollapseIsJoin(s: string)
    requires |s| > 0 && !IsSpace(s[0])
    ensures Collapse(s) == Join(Words(s)) + (if IsSpace(s[|s| - 1]) then " " else "")
    decreases |s|, 1
  {
    var n := WordLen(s);
    var rest := s[n..];
    CollapsePrefix(s, n);
    assert Words(s) == [s[..n]] + Words(rest);
    if n == |s| {
      WholeWord(s);
    } else {
      assert IsSpace(rest[0]) && rest[|rest| - 1] == s[|s| - 1];
      CollapseWordThenRun(s, s[..n], rest);
    }
  }

  lemma WholeWord(s: string)
    requires |s| > 0 && WordLen(s) == |s|
    requires Collapse(s) == s[..|s|] + Collapse(s[|s|..])
    requires Words(s) == [s[..|s|]] + Words(s[|s|..])
    ensures Collapse(s) == Join(Words(s)) + (if IsSpace(s[|s| - 1]) then " " else "")
  {
    assert s[..|s|] == s;
    assert s[|s|..] == "";
    assert Words(s) == [s];
    assert !IsSpace(s[|s| - 1]);
    assert s + "" == s;
  }

  lemma {:induction false} CollapseWordThenRun(s: string, w: string, rest: string)
    requires |s| > |rest| > 0 && IsSpace(rest[0]) && rest[|rest| - 1] == s[|s| - 1]
    requires Collapse(s) == w + Collapse(rest)
    requires Words(s) == [w] + Words(rest)
    ensures Collapse(s) == Join(Words(s)) + (if IsSpace(s[|s| - 1]) then " " else "")
    decreases |s|, 0
  {
    var n := LeadCount(rest);
    var t := rest[n..];
    CollapseRun(rest);
    WordsSkipSpace(rest);
    if n < |rest| {
      assert t[0] == rest[n];
      CollapseIsJoin(t);
      GlueRun(s, w, t);
    } else {
      assert t == "";
      assert IsSpace(s[|s| - 1]) by {
        assert SpaceBetween(rest, 0, |rest|);
      }
      GlueTrailingRun(s, w, t);
    }
  }

  /** One word followed by a whitespace run that ends the text. */
  lemma GlueTrailingRun(s: string, w: string, t: string)
    requires |s| > 0 && IsSpace(s[|s| - 1]) && t == ""
    requires Collapse(s) == w + (" " + Collapse(t))
    requires Words(s) == [w] + Words(t)
    ensures Collapse(s) == Join(Words(s)) + (if IsSpace(s[|s| - 1]) then " " else "")
  {
    assert Words(s) == [w];
    assert Collapse(s) == w + " ";
  }

  /** One word glued in front of the collapse of text that starts with a
      word, after the whitespace run between them became one space. */
  lemma GlueRun(s: string, w: string, t: string)
    requires |s| > 0 && |t| > 0 && t[|t| - 1] == s[|s| - 1]
    requires Collapse(s) == w + (" " + Collapse(t))
    requires Words(s) == [w] + Words(t) && |Words(t)| > 0
    requires Collapse(t) == Join(Words(t)) + (if IsSpace(t[|t| - 1]) then " " else "")
    ensures Collapse(s) == Join(Words(s)) + (if IsSpace(s[|s| - 1]) then " " else "")
  {
    JoinStep(w, Words(t), if IsSpace(t[|t| - 1]) then " " else "");
  }

  /** Gluing one more word in front of a joined tail. */
  lemma JoinStep(w: string, ws: seq<string>, trail: string)
    ensures w + (" " + (Join(ws) + trail)) == Join([w] + ws) + (if |ws| == 0 then " " + trail else trail)
  {
    if |ws| > 0 {
      JoinCons(w, ws);
      Assoc4(w, " ", Join(ws), trail);
    } else {
      assert [w] + ws == [w];
      Assoc4(w, " ", "", trail);
    }
  }

  /** Regrouping four strings; kept apart so that `Join` is not unfolded
      while the solver regroups. */
  lemma Assoc4(a: string, b: string, c: string, d: string)
    ensures a + (b + (c + d)) == a + b + c + d
  {
  }

  /** Reference reading of the cell normalisation: it equals
      `" ".join(s.split())`. */
  lemma NormalizeIsJoinOfWords(s: string)
    ensures Normalize(s) == Join(Words(s))
  {
    var i := LeadCount(s);
    var t := s[i..];
    WordsSkipSpace(s);
    if |t| == 0 {
      assert Words(t) == [];
      CollapseAllSpace(s);
      StripAllSpace(Collapse(s));
    } else {
      NormalizeFromWord(s, t);
    }
  }

  lemma CollapseAllSpace(s: string)
    requires LeadCount(s) == |s|
    ensures SpaceBetween(Collapse(s), 0, |Collapse(s)|)
  {
    if |s| > 0 {
      CollapseRun(s);
      assert Collapse(s) == " ";
    }
  }

  lemma NormalizeFromWord(s: string, t: string)
    requires t == s[LeadCount(s)..] && |t| > 0
    ensures Normalize(s) == Join(Words(t))
  {
    var lead, trail := CollapseFromWord(s, t);
    JoinTrimmed(Words(t));
    StripPadded(lead, Join(Words(t)), trail);
  }

  /** Collapsing text whose first word starts at `t` gives the joined words
      with at most one space on either side. */
  lemma CollapseFromWord(s: string, t: string) returns (lead: string, trail: string)
    requires t == s[LeadCount(s)..] && |t| > 0
    ensures SpaceBetween(lead, 0, |lead|) && SpaceBetween(trail, 0, |trail|)
    ensures Collapse(s) == lead + (Join(Words(t)) + trail)
  {
    trail := if IsSpace(t[|t| - 1]) then " " else "";
    CollapseIsJoin(t);
    if |s| > |t| {
      lead := " ";
      CollapseRun(s);
    } else {
      lead := "";
      assert s == t;
    }
  }

  /** Text with whitespace on both sides strips back to the text. */
  lemma StripPadded(lead: string, m: string, trail: string)
    requires SpaceBetween(lead, 0, |lead|) && SpaceBetween(trail, 0, |trail|)
    requires Trimmed(m)
    ensures Strip(lead + (m + trail)) == m
  {
    var c := lead + (m + trail);
    assert StripOf(c, m) by {
      assert c[|lead|..|lead| + |m|] == m;
      assert c[..|lead|] == lead;
      assert c[|lead| + |m|..] == trail;
    }
    StripOfDetermines(c, m);
  }

  // ---------------------------------------------------------------------
  // case folding
  // ---------------------------------------------------------------------

  /** ASCII case folding; see README for why this agrees with Python's
      `str.lower()` on the two titles the pipeline compares against. */
  function LowerChar(c: char): char {
    if 'A' <= c <= 'Z' then (c as int + 32) as char else c
  }

  /** `str.lower()` on ASCII: every upper-case letter becomes its lower-case
      partner, every other character stays as it is. */
  function Lower(s: string): (r: string)
    ensures |r| == |s|
    ensures forall i | 0 <= i < |s| :: !('A' <= r[i] <= 'Z')
    ensures forall i | 0 <= i < |s| && !('A' <= s[i] <= 'Z') :: r[i] == s[i]
    ensures forall i | 0 <= i < |s| && 'A' <= s[i] <= 'Z' :: 'a' <= r[i] <= 'z' && r[i] as int - 'a' as int == s[i] as int - 'A' as int
  {
    seq(|s|, i requires 0 <= i < |s| => LowerChar(s[i]))
  }

  // ---------------------------------------------------------------------
  // helpers
  // ---------------------------------------------------------------------

  lemma NonSpaceAppend(a: string, b: string)
    ensures NonSpace(a + b) == NonSpace(a) + NonSpace(b)
  {
    if |a| > 0 {
      assert (a + b)[1..] == a[1..] + b;
      NonSpaceAppend(a[1..], b);
    } else {
      assert a + b == b;
    }
  }

  lemma {:induction false} NonSpaceSplit(s: string, k: nat)
    requires k <= |s|
    ensures NonSpace(s) == NonSpace(s[..k]) + NonSpace(s[k..])
  {
    NonSpaceAppend(s[..k], s[k..]);
    assert s[..k] + s[k..] == s;
  }

  lemma {:induction false} NonSpaceOfSpaces(s: string)
    requires SpaceBetween(s, 0, |s|)
    ensures NonSpace(s) == ""
  {
    if |s| > 0 {
      NonSpaceOfSpaces(s[1..]);
    }
  }

  /** The pointwise reading of SingleSpaced: no whitespace character other
      than a plain space, and no two whitespace characters in a row. It
      justifies the recursive definition, which the other proofs use directly. */
  lemma {:induction false} SingleSpacedAt(s: string, i: nat)
    requires SingleSpaced(s) && i < |s| && IsSpace(s[i])
    ensures s[i] == ' '
    ensures i + 1 < |s| ==> !IsSpace(s[i + 1])
  {
    if i > 0 {
      SingleSpacedAt(s[1..], i - 1);
    }
  }

  lemma SingleSpacedCons(c: char, t: string)
    requires SingleSpaced(t)
    requires IsSpace(c) ==> c == ' ' && (|t| == 0 || !IsSpace(t[0]))
    ensures SingleSpaced([c] + t)
  {
    assert ([c] + t)[1..] == t;
  }

  lemma {:induction false} SingleSpacedSlice(s: string, i: nat, j: nat)
    requires i <= j <= |s|
    requires SingleSpaced(s)
    ensures SingleSpaced(s[i..j])
    decreases |s|
  {
    if i > 0 {
      SingleSpacedSlice(s[1..], i - 1, j - 1);
      assert s[1..][i - 1..j - 1] == s[i..j];
    } else if j > 0 {
      SingleSpacedSlice(s[1..], 0, j - 1);
      assert s[..j][1..] == s[1..][0..j - 1];
      assert s[..j] == s[0..j];
    } else {
      assert s[i..j] == "";
    }
  }
}

=== FILE: wrappers.dfy ===
/** The optional value used wherever the source may hold Python's `None`. */
module Wrappers {

  datatype Option<+T> = None | Some(value: T)
}
